=== FILE: README.md ===
# periodicity — run-or-skip scheduling, modelled in Dafny

`periodicity/periodic_wrappers.py` wraps a function so that each call either runs it
or skips it, using a small JSON store keyed by the function's name. There are two
policies:

- `every_specific(day_of_month, repeat_every_days)` is anchored to the calendar. It
  can run only on the days `day_of_month`, `day_of_month + repeat_every_days`, … up
  to 31. For `day_of_month >= 1` it runs at most once on each of them. An allowed
  day whose successor the month lacks raises `ValueError` instead (see below). The
  store keeps a signature `(day_of_month, repeat_every_days, next_due_timestamp)`.
- `every(days)` uses a fixed interval. It runs when the stored next-due instant has
  passed, then stores `now + days`.

The model is purely functional. Each policy is a function from "now", the policy
and the store to a `Decision(run, db)`: whether the wrapped function runs, and the
store afterwards. Exceptions the source raises become `Err` values of `Result`.

Modules, one file each:

- `Outcomes` (`outcomes.dfy`): `Option`, `Result` and the `Error` kinds, which are
  the `ValueError`, `TypeError` and `OverflowError` cases the core can raise.
- `CivilDate` (`civil_date.dfy`): proleptic Gregorian dates for years 1–9999, the
  range `datetime` accepts. It has month lengths as `calendar.monthrange` gives
  them, days since 1970-01-01, and UTC-midnight timestamps (epoch day × 86400). It
  proves that years have 365 or 366 days and that epoch days continue without a
  gap across month and year boundaries.
- `Store` (`store.dfy`): `get_default` over `Db = Parsed(map) | Unparseable`. The
  store holds `Ts(t)` for the interval policy and `Sig(day, repeat, due)` for the
  calendar policy.
- `EverySpecific` (`every_specific.dfy`): construction (validation and resolution
  of the `-1` sentinel), `allowed_days`, the scan for today, the next-due
  computation and the store reconciliation.
- `Every` (`every.dfy`): the interval decision.

Behaviour of the code that is easy to misread:

- In `every`, a freshly created record equals the candidate, so the first call
  falls through to the run at line 162. The first call therefore RUNS.
- `every` does not reject a zero or negative `days`. Only an interval outside
  timedelta's range raises, and it does so on each call.
- `every_specific` accepts `day_of_month = 0` (see Findings).
- In `every_specific`, the timestamp that decides the run is read before a changed
  signature is overwritten, and it is never read again.
- A successor day the current month lacks makes `datetime.replace` raise
  `ValueError`. That error is not the caught `IndexError`, so it reaches the
  caller. The model returns `Err(DayNotInMonth)` (see Findings).
- A stored record of the other policy's shape raises `TypeError`: indexing a float,
  or comparing a list with a float.
- The guarantee "at most one run per allowed day" holds only for
  `day_of_month >= 1`.
- In `every`, a second call at the very same instant as a run runs again, because
  the stored value equals the new candidate and reads as a fresh record.

## Model

| member | source | states |
|---|---|---|
| CivilDate.DaysInMonth | periodicity/periodic_wrappers.py:94 | a month has 28 to 31 days, and February has 29 exactly in a Gregorian leap year |
| CivilDate.LastOfMonth | periodicity/periodic_wrappers.py:94-96 | the last day of a month is a real day of that month, and the day after it is not |
| CivilDate.MidnightOrder | periodicity/periodic_wrappers.py:111 | one UTC-midnight timestamp is at most another exactly when its date is not after the other's in (year, month, day) order, and equal midnights mean the same date; the `>=` expiry test relies on this |
| CivilDate.UnixEpoch | periodicity/periodic_wrappers.py:85 | 1970-01-01 is epoch day 0 |
| CivilDate.YearLength | periodicity/periodic_wrappers.py:94-96 | a year has 366 days if it is a leap year and 365 otherwise |
| CivilDate.MonthBoundary | periodicity/periodic_wrappers.py:95-96 | the day after the last day of a month is the first day of the next month, across year ends too |
| CivilDate.PastMonthEnd | periodicity/periodic_wrappers.py:95-96 | the last day of a month plus k days (1 ≤ k ≤ the next month's length) is day k of the next month |
| Store.GetDefault | periodicity/periodic_wrappers.py:37-49 | without overwrite, a present key returns its value and changes nothing; otherwise the key is set to the value and returned; the store always holds what is returned; other keys are unchanged |
| Store.UnparseableActsEmpty | periodicity/periodic_wrappers.py:37-44 | content that does not parse behaves exactly like an empty store |
| Store.GetOrInitIdempotent | periodicity/periodic_wrappers.py:42-43 | a repeated get-or-init returns the same value and leaves the store as it was |
| Store.ReadAfterSet | periodicity/periodic_wrappers.py:42-44 | after a set, a get-or-init with any default reads back the value that was set |
| Store.SetTwice | periodicity/periodic_wrappers.py:44-48 | setting a key twice is the same as setting it once to the second value |
| EverySpecific.New | periodicity/periodic_wrappers.py:57-65 | a repeat ≤ 0 fails first; then a day outside -1..31 fails; otherwise the policy keeps the repeat and the day, and the sentinel -1 becomes the last day of the construction month |
| EverySpecific.SentinelResolvedAtConstruction | periodicity/periodic_wrappers.py:62-74 | building with -1 equals building with the length of the construction month, from any later date; the resolved day is at least 28 |
| EverySpecific.AllowedDaysShape | periodicity/periodic_wrappers.py:71-74 | allowed days start at the day, step by the repeat, stay ≤ 31, and one more step would pass 31; the length is (31 - day) / repeat + 1 |
| EverySpecific.AllowedDaysIncreasing | periodicity/periodic_wrappers.py:71-83 | allowed days strictly increase, so at most one index matches today |
| EverySpecific.AllowedDaysMembership | periodicity/periodic_wrappers.py:71-74 | a day is allowed iff it lies between the anchor day and 31 and differs from the anchor by a multiple of the repeat |
| EverySpecific.FindDay | periodicity/periodic_wrappers.py:82-83 | the scan returns the first index holding today's day, or reports that none does |
| EverySpecific.FindDayOnAllowedDays | periodicity/periodic_wrappers.py:71-83 | on the allowed days the scan succeeds iff the day is allowed, and then at index (day - anchor) / repeat |
| EverySpecific.NextDue | periodicity/periodic_wrappers.py:85-97 | with a successor, next-due is midnight of that day this month, or an error if the month lacks it; without one, it is the month's last midnight plus anchor days, or an overflow error in December 9999; a result is a midnight not before today's, and strictly later when the anchor day is ≥ 1 |
| EverySpecific.SuccessorDue | periodicity/periodic_wrappers.py:88-90 | the successor's next-due is midnight of that later day this month, strictly after today's midnight, and fails exactly when the month lacks that day |
| EverySpecific.WrapDue | periodicity/periodic_wrappers.py:92-97 | for an anchor from 0 to 31 (the first allowed day), the wrap-around next-due is the month's last midnight plus the anchor days, not before today and strictly after it for an anchor ≥ 1; it fails with an overflow exactly in December 9999 with an anchor ≥ 1 |
| EverySpecific.WrapLandsOnAnchorDay | periodicity/periodic_wrappers.py:92-97 | the wrap-around lands on midnight of the anchor day of the next month whenever that month has such a day |
| EverySpecific.Reconcile | periodicity/periodic_wrappers.py:99-126 | a stored bare timestamp fails; the run happens iff today's midnight ≥ the timestamp stored before the call (the fresh due for a new record); a skip with the same policy stored writes nothing; a run, a new record or a changed policy leaves the fresh signature; other keys are untouched |
| EverySpecific.Call | periodicity/periodic_wrappers.py:70-129 | on a day that is not allowed, nothing is read, written or run; on an allowed day, a next-due error comes before any store access, and otherwise the store reconciliation decides against today's midnight |
| EverySpecific.RunIffExpired | periodicity/periodic_wrappers.py:100-115 | with a signature already stored, the call runs iff the previously stored due instant is not after today's midnight |
| EverySpecific.PolicyChangeOverwrites | periodicity/periodic_wrappers.py:107-110 | a stored signature with other parameters is replaced by the fresh one, whether or not the function runs |
| EverySpecific.FirstCallSkips | periodicity/periodic_wrappers.py:99-123 | with anchor day ≥ 1, the first call on an allowed day does not run and stores the fresh signature under the name |
| EverySpecific.AtMostOneRunPerDay | periodicity/periodic_wrappers.py:99-126 | with anchor day ≥ 1, after a run the next call on the same day skips and leaves the store unchanged |
| EverySpecific.ZeroDayRunsOnEveryCall | periodicity/periodic_wrappers.py:57-60 | as written, day 0 with repeat 31 is accepted, and on the 31st the first call runs and so does the next |
| EverySpecific.NewChecked | periodicity/periodic_wrappers.py:57-65 | corrected construction: it fails unless repeat > 0 and the day is -1 or 1..31; otherwise it agrees with New |
| EverySpecific.CheckedPolicyRunsOncePerDay | periodicity/periodic_wrappers.py:99-126 | with the corrected construction, a first call never runs, and a run is followed by a skip on the same day |
| EverySpecific.MissingSuccessorRaises | periodicity/periodic_wrappers.py:88-91 | as written, (14, 5) on 2025-02-24 and (1, 15) on 2025-04-16 raise `ValueError` on every call, since the successor day is missing from the month; the corrected rule gives 2025-03-14 for the first |
| EverySpecific.NextDueWrapped | periodicity/periodic_wrappers.py:85-97 | corrected next-due: it fails only with the overflow in December 9999, its result is a midnight after today's when the anchor day is ≥ 1, it agrees with NextDue wherever NextDue succeeds, and it wraps where NextDue raises for a missing successor |
| EverySpecific.DefaultIsFirstOfEachMonth | periodicity/periodic_wrappers.py:51-55 | the default policy (day 1, every 31 days) allows only the 1st, and a run on the 1st makes the 1st of the next month due |
| EverySpecific.MarchExample | periodicity/periodic_wrappers.py:71-126 | day 14, repeat 5: allowed days are 14, 19, 24, 29; on 2024-03-14 an empty store gets the 19th's midnight and nothing runs; on 2024-03-19 the function runs and the 24th is stored |
| Every.Call | periodicity/periodic_wrappers.py:146-163 | an interval outside timedelta's range (below -999999999 days, or 10^9 days and up) fails before the store is touched; otherwise a first call runs and stores now + days; a stored signature fails; a stored timestamp runs iff it equals the candidate or now is strictly after it; a skip writes nothing; a run leaves exactly the candidate under the name |
| Every.NextRunAfterRun | periodicity/periodic_wrappers.py:148-163 | after a run at t, a call at u runs iff u = t or u is strictly more than days after t |
| Every.NoRunWithinInterval | periodicity/periodic_wrappers.py:148-161 | with a positive interval, no call in (t, t + days] after a run at t runs, and the store is unchanged |
| Every.SkipIsStable | periodicity/periodic_wrappers.py:150-161 | after a skip, a call at the same instant skips again with the same store |

## Left out

- `get_datadir` is left out. It is platform and home-directory lookup.
- The file mechanics of `get_default` are left out: the directory creation, the
  open/seek/truncate/write, and JSON encoding. The store is a map. Content that
  does not parse is one `Unparseable` value.
- JSON content that parses but is not an object of floats and 3-element lists is
  left out. This covers an array at the top level, and records of other shapes.
- The clock is left out. `datetime.now` becomes a parameter: the calendar policy
  takes today's UTC date, and `Every.Call` takes `now` in epoch seconds. The
  construction instant that resolves the sentinel is the `constructedOn` argument
  of `EverySpecific.New`.
- The decorator machinery is left out: `functools.wraps`, the optional `func`
  argument, and forwarding of arguments. The wrapped call is the `run` flag. Its
  return value and its exceptions are not modelled.
- Logging and the `__main__` demonstration are left out.
- Every.Call: `now` and `days` are exact reals. Float rounding is not modelled, nor
  the microsecond rounding of `timedelta`. The test "stored value equals the
  candidate" is exact equality on reals. The overflow bound is taken as exactly
  10^9 days. An interval within a microsecond of that bound may round either way
  in the source.
- EverySpecific.Reconcile: timestamps are exact integers rather than floats.
- Concurrent processes sharing the store file are left out. The source has no
  locking.

## Findings

| source | as written | input that shows it | evidently intended | confidence | as-written member | corrected member |
|---|---|---|---|---|---|---|
| periodicity/periodic_wrappers.py:59-60 | the range check admits day_of_month = 0, though the sentinel is -1 and the error message asks for a day above 0 | `every_specific(day_of_month=0, repeat_every_days=31)`, called on any 31st: next-due is today's own midnight, so the first call runs and every later call that day runs too | reject 0, so that a first call only registers and each allowed day runs at most once | medium, not executed | EverySpecific.ZeroDayRunsOnEveryCall | EverySpecific.NewChecked |
| periodicity/periodic_wrappers.py:88-91 | the successor day is set with `today.replace(day=succ_day)`, and only `IndexError` falls back to the wrap-around; an allowed successor past the month's length raises `ValueError` | `every_specific(day_of_month=14, repeat_every_days=5)` called on 2025-02-24: the successor 29 is missing from February, so every call that day raises and its run is lost | treat a successor past the month's end like the end of the allowed days and wrap to the next month, so the day still runs and the schedule goes on | medium, not executed | EverySpecific.MissingSuccessorRaises | EverySpecific.NextDueWrapped |

`EverySpecific.New` is the construction as written. `EverySpecific.NewChecked` is
the corrected one. `EverySpecific.CheckedPolicyRunsOncePerDay` proves the intended
behaviour for the policies `NewChecked` produces: a first call never runs, and an
allowed day runs at most once.

`EverySpecific.NextDue` is the next-due rule as written, and `EverySpecific.Call`
uses it. `EverySpecific.NextDueWrapped` is the corrected rule: it never raises for
a missing successor day, and it agrees with `NextDue` wherever `NextDue` succeeds.

=== FILE: civil_date.dfy ===
/** Proleptic Gregorian civil dates, the day arithmetic the calendar policy
    needs from Python's `datetime` and `calendar.monthrange`. A UTC-midnight
    timestamp is a whole number of days since 1970-01-01 times 86400. */
module CivilDate {

  const SecondsPerDay: int := 86400
  /** The range of years `datetime` accepts. */
  const MinYear: int := 1
  const MaxYear: int := 9999
  /** Days from 0001-01-01 to 1970-01-01. */
  const UnixEpochOrdinal: int := 719162

  datatype Date = Date(year: int, month: int, day: int)

  predicate IsLeapYear(y: int) {
    y % 4 == 0 && (y % 100 != 0 || y % 400 == 0)
  }

  /** Length of a month, the second component of `calendar.monthrange`. */
  function DaysInMonth(y: int, m: int): (n: int)
    requires 1 <= m <= 12
    ensures 28 <= n <= 31
    ensures m == 2 ==> (n == 29 <==> IsLeapYear(y))
  {
    if m == 2 then (if IsLeapYear(y) then 29 else 28)
    else if m == 4 || m == 6 || m == 9 || m == 11 then 30
    else 31
  }

  predicate Valid(d: Date) {
    && MinYear <= d.year <= MaxYear
    && 1 <= d.month <= 12
    && 1 <= d.day <= DaysInMonth(d.year, d.month)
  }

  function LastOfMonth(y: int, m: int): (d: Date)
    requires MinYear <= y <= MaxYear && 1 <= m <= 12
    ensures Valid(d) && d.year == y && d.month == m
    ensures !Valid(Date(y, m, d.day + 1))
  {
    Date(y, m, DaysInMonth(y, m))
  }

  /** The first day of the month after month `m` of year `y`. */
  function FirstOfNextMonth(y: int, m: int): (d: Date)
    requires MinYear <= y <= MaxYear && 1 <= m <= 12
    requires y < MaxYear || m < 12
    ensures Valid(d) && d.day == 1
    ensures d.year == y || d.year == y + 1
    ensures d.year == y ==> d.month == m + 1
    ensures d.year == y + 1 ==> m == 12 && d.month == 1
  {
    if m == 12 then Date(y + 1, 1, 1) else Date(y, m + 1, 1)
  }

  /** Days from 0001-01-01 to January 1st of year `y`. */
  function DaysBeforeYear(y: int): int
    requires y >= 1
  {
    var p := y - 1;
    365 * p + p / 4 - p / 100 + p / 400
  }

  /** Days from January 1st to the first day of month `m` of year `y`. */
  function DaysBeforeMonth(y: int, m: int): int
    requires 1 <= m <= 12
    decreases m
  {
    if m == 1 then 0 else DaysBeforeMonth(y, m - 1) + DaysInMonth(y, m - 1)
  }

  /** Days since 1970-01-01 (negative before it). */
  function EpochDay(d: Date): int
    requires Valid(d)
  {
    DaysBeforeYear(d.year) + DaysBeforeMonth(d.year, d.month) + d.day - 1 - UnixEpochOrdinal
  }

  /** The UTC-midnight timestamp that starts epoch day `n`. */
  function DayStart(n: int): int
  {
    n * SecondsPerDay
  }

  /** A day's start is a whole number of days in seconds. */
  lemma DayStartAligned(n: int)
    ensures DayStart(n) % SecondsPerDay == 0
  {
    DivModUnique(DayStart(n), SecondsPerDay, n, 0);
  }

  /** `datetime(y, m, d, tzinfo=utc).timestamp()`. */
  function Midnight(d: Date): int
    requires Valid(d)
  {
    DayStart(EpochDay(d))
  }

  // ---------------------------------------------------------------------
  // Division facts used below. Dafny's `/` and `%` are Euclidean, which for
  // a positive divisor agrees with Python's floor division.

  lemma DivModUnique(a: int, k: int, q: int, r: int)
    requires k > 0 && 0 <= r < k && a == k * q + r
    ensures a / k == q && a % k == r
  {
    var q0, r0 := a / k, a % k;
    assert k * (q0 - q) == r - r0;
    MulAwayFromZero(k, q0 - q);
  }

  /** A nonzero multiple of `k` is at least `k` away from zero. */
  lemma MulAwayFromZero(k: int, t: int)
    requires k > 0
    ensures t >= 1 ==> k * t >= k
    ensures t <= -1 ==> k * t <= -k
  {
    assert k * t == k + k * (t - 1);
    assert k * t == -k + k * (t + 1);
  }

  /** Stepping the numerator by one raises the quotient exactly at a multiple. */
  lemma DivStep(a: int, k: int)
    requires k > 0
    ensures a / k - (a - 1) / k == (if a % k == 0 then 1 else 0)
  {
    var q, r := (a - 1) / k, (a - 1) % k;
    if r == k - 1 {
      DivModUnique(a, k, q + 1, 0);
    } else {
      DivModUnique(a, k, q, r + 1);
    }
  }

  lemma MultipleOfMultiple(y: int, k: int, j: int)
    requires k > 0 && j > 0 && y % (k * j) == 0
    ensures y % k == 0
  {
    var q := y / (k * j);
    assert y == (k * j) * q;
    DivModUnique(y, k, j * q, 0);
  }

  /** A year has 366 days exactly when it is a leap year. */
  lemma {:induction false} YearLength(y: int)
    requires y >= 1
    ensures DaysBeforeYear(y + 1) == DaysBeforeYear(y) + (if IsLeapYear(y) then 366 else 365)
  {
    DivStep(y, 4);
    DivStep(y, 100);
    DivStep(y, 400);
    if y % 400 == 0 {
      MultipleOfMultiple(y, 100, 4);
      MultipleOfMultiple(y, 4, 100);
    } else if y % 100 == 0 {
      MultipleOfMultiple(y, 4, 25);
    }
  }

  /** The cumulative month table, leap day included from March on. */
  lemma {:induction false} DaysBeforeMonthTable(y: int, m: int)
    requires 1 <= m <= 12
    ensures DaysBeforeMonth(y, m)
         == [0, 31, 59, 90, 120, 151, 181, 212, 243, 273, 304, 334][m - 1]
            + (if m > 2 && IsLeapYear(y) then 1 else 0)
    decreases m
  {
    if m > 1 {
      DaysBeforeMonthTable(y, m - 1);
    }
  }

  /** Epoch days are contiguous across a month boundary: the day after the
      last of a month is the first of the next one. */
  lemma {:induction false} MonthBoundary(y: int, m: int)
    requires MinYear <= y <= MaxYear && 1 <= m <= 12
    requires y < MaxYear || m < 12
    ensures EpochDay(FirstOfNextMonth(y, m)) == EpochDay(LastOfMonth(y, m)) + 1
  {
    if m == 12 {
      DaysBeforeMonthTable(y, 12);
      YearLength(y);
    }
  }

  /** Within a month, epoch days count days of the month. */
  lemma SameMonthDistance(a: Date, b: Date)
    requires Valid(a) && Valid(b) && a.year == b.year && a.month == b.month
    ensures EpochDay(b) - EpochDay(a) == b.day - a.day
  {
  }

  /** Adding `k` days, for `k` at least 1 and not past the next month's end,
      to the last day of a month lands on day `k` of the next month. */
  lemma {:induction false} PastMonthEnd(y: int, m: int, k: int)
    requires MinYear <= y <= MaxYear && 1 <= m <= 12
    requires y < MaxYear || m < 12
    requires 1 <= k
    requires k <= DaysInMonth(FirstOfNextMonth(y, m).year, FirstOfNextMonth(y, m).month)
    ensures var n := FirstOfNextMonth(y, m);
            Valid(Date(n.year, n.month, k))
            && EpochDay(Date(n.year, n.month, k)) == EpochDay(LastOfMonth(y, m)) + k
  {
    var n := FirstOfNextMonth(y, m);
    MonthBoundary(y, m);
    SameMonthDistance(n, Date(n.year, n.month, k));
  }

  /** `a` is not after `b` in (year, month, day) order. */
  predicate NotAfter(a: Date, b: Date) {
    || a.year < b.year
    || (a.year == b.year && a.month < b.month)
    || (a.year == b.year && a.month == b.month && a.day <= b.day)
  }

  /** Comparing UTC-midnight timestamps compares calendar dates: one midnight
      is at most another exactly when its date is not after the other's, and
      equal midnights belong to the same date. */
  lemma MidnightOrder(a: Date, b: Date)
    requires Valid(a) && Valid(b)
    ensures Midnight(a) <= Midnight(b) <==> NotAfter(a, b)
    ensures Midnight(a) == Midnight(b) <==> a == b
  {
    if a != b {
      if NotAfter(a, b) {
        EpochDayStrictlyIncreasing(a, b);
      } else {
        EpochDayStrictlyIncreasing(b, a);
      }
    }
  }

  lemma EpochDayStrictlyIncreasing(a: Date, b: Date)
    requires Valid(a) && Valid(b) && NotAfter(a, b) && a != b
    ensures EpochDay(a) < EpochDay(b)
  {
    if a.year < b.year {
      DayOfYearBelowYearLength(a);
      DaysBeforeMonthTable(b.year, b.month);
      YearsGrow(a.year + 1, b.year);
    } else if a.month < b.month {
      MonthsGrow(a.year, a.month, b.month);
    }
  }

  /** Days before month `m2` cover month `m1` and every month before it. */
  lemma {:induction false} MonthsGrow(y: int, m1: int, m2: int)
    requires 1 <= m1 < m2 <= 12
    ensures DaysBeforeMonth(y, m2) >= DaysBeforeMonth(y, m1) + DaysInMonth(y, m1)
    decreases m2
  {
    if m2 > m1 + 1 {
      MonthsGrow(y, m1, m2 - 1);
    }
  }

  /** A day of year `y` comes before January 1st of year `y + 1`. */
  lemma DayOfYearBelowYearLength(d: Date)
    requires Valid(d)
    ensures DaysBeforeMonth(d.year, d.month) + d.day <= DaysBeforeYear(d.year + 1) - DaysBeforeYear(d.year)
  {
    YearLength(d.year);
    DaysBeforeMonthTable(d.year, 12);
    if d.month < 12 {
      MonthsGrow(d.year, d.month, 12);
    }
  }

  lemma {:induction false} YearsGrow(y1: int, y2: int)
    requires 1 <= y1 <= y2
    ensures DaysBeforeYear(y1) <= DaysBeforeYear(y2)
    decreases y2 - y1
  {
    if y1 < y2 {
      YearLength(y1);
      YearsGrow(y1 + 1, y2);
    }
  }

  lemma UnixEpoch()
    ensures EpochDay(Date(1970, 1, 1)) == 0
  {
  }
}

=== FILE: every.dfy ===
/** The fixed-interval policy `every` (periodicity/periodic_wrappers.py:138-169):
    run when the stored next-due instant has passed, then push it `days` days
    past now. Instants are UTC epoch seconds; `days` may be fractional. */
module Every {
  import opened Outcomes
  import opened CivilDate
  import opened Store

  /** `timedelta` holds from -999999999 days up to, but not including,
      1000000000 days. */
  const MinTimedeltaDays: real := -999999999.0
  const TimedeltaDaysBound: real := 1000000000.0

  /** `timedelta(days=days)` raises OverflowError outside its range. */
  predicate IntervalOverflows(days: real) {
    days < MinTimedeltaDays || days >= TimedeltaDaysBound
  }

  /** `now + timedelta(days=days).total_seconds()`. */
  function Candidate(now: real, days: real): real
  {
    now + days * SecondsPerDay as real
  }

  /** `call_fn_or_not` for one call at instant `now` with the store `db`.
      The record is get-or-initialised with the candidate; a stored value
      equal to the candidate is taken for a fresh record and runs without a
      further write; otherwise the function runs, and the candidate is
      stored, iff `now` is strictly after the stored instant. */
  function Call(days: real, name: string, now: real, db: Db): (r: Result<Decision>)
    // An interval timedelta cannot hold fails before the store is touched.
    ensures IntervalOverflows(days) ==> r == Err(IntervalOverflow)
    // First call for a name: it runs, and the record is created.
    ensures !IntervalOverflows(days) && name !in Contents(db) ==>
              && r.Ok? && r.value.run
              && Contents(r.value.db) == Contents(db)[name := Ts(Candidate(now, days))]
    // A calendar signature under the same name cannot be compared with a float.
    ensures r.Err? <==> IntervalOverflows(days) || (name in Contents(db) && Contents(db)[name].Sig?)
    ensures r.Err? && !IntervalOverflows(days) ==> r.error == NotComparable
    // A stored timestamp: run iff it equals the candidate or has passed, strictly.
    ensures !IntervalOverflows(days) && name in Contents(db) && Contents(db)[name].Ts? ==>
              && r.Ok?
              && (r.value.run <==> Contents(db)[name].t == Candidate(now, days)
                                   || now > Contents(db)[name].t)
    // A skip writes nothing; a run leaves exactly the candidate under the name.
    ensures r.Ok? && !r.value.run ==> r.value.db == db
    ensures r.Ok? && r.value.run ==>
              && r.value.db.Parsed?
              && r.value.db.entries == Contents(db)[name := Ts(Candidate(now, days))]
  {
    if IntervalOverflows(days) then Err(IntervalOverflow)
    else
      var candidate := Candidate(now, days);
      var (stored, db1) := GetDefault(db, name, Ts(candidate), false);
      if stored != Ts(candidate) then
        if !stored.Ts? then Err(NotComparable)
        else if now > stored.t then
          Ok(Decision(true, GetDefault(db1, name, Ts(candidate), true).1))
        else
          Ok(Decision(false, db1))
      else
        assert Contents(db1)[name := Ts(candidate)] == Contents(db1);
        Ok(Decision(true, db1))
  }

  /** After a run at instant `t`, a call at `u` runs again exactly when `u`
      is `t` itself (the stored value then equals the candidate and reads as
      a fresh record) or `u` is strictly more than `days` days after `t`. */
  lemma NextRunAfterRun(days: real, name: string, t: real, db: Db, db1: Db, u: real)
    requires Call(days, name, t, db) == Ok(Decision(true, db1))
    ensures Call(days, name, u, db1).Ok?
    ensures Call(days, name, u, db1).value.run <==> u == t || u > Candidate(t, days)
  {
    assert Contents(db1)[name] == Ts(Candidate(t, days));
  }

  /** Interval correctness: with a positive interval, after a run at `t` no
      later call runs before `days` days have passed. */
  lemma NoRunWithinInterval(days: real, name: string, t: real, db: Db, db1: Db, u: real)
    requires days > 0.0
    requires Call(days, name, t, db) == Ok(Decision(true, db1))
    requires t < u <= Candidate(t, days)
    ensures Call(days, name, u, db1) == Ok(Decision(false, db1))
  {
    NextRunAfterRun(days, name, t, db, db1, u);
  }

  /** A skip is stable: calling again at the same instant skips again. */
  lemma SkipIsStable(days: real, name: string, now: real, db: Db)
    requires Call(days, name, now, db).Ok? && !Call(days, name, now, db).value.run
    ensures Call(days, name, now, Call(days, name, now, db).value.db) == Call(days, name, now, db)
  {
  }
}

=== FILE: every_specific.dfy ===
/** The calendar-anchored policy `every_specific`
    (periodicity/periodic_wrappers.py:51-136): run only on the days of the
    month `day_of_month, day_of_month + repeat_every_days, …` up to 31,
    remembering the next due instant in the store. For `day_of_month >= 1`
    it runs at most once on each such day; an allowed day whose successor
    the month lacks raises instead. */
module EverySpecific {
  import opened Outcomes
  import opened CivilDate
  import opened Store

  /** `day_of_month = -1` asks for the last day of the construction month. */
  const LastDaySentinel: int := -1
  /** Allowed days never exceed 31, whatever the month's length. */
  const MaxAllowedDay: int := 31

  /** The decorator's defaults: the first of every month. */
  const DefaultDayOfMonth: int := 1
  const DefaultRepeatEveryDays: int := 31

  /** A constructed policy, its sentinel already resolved. */
  datatype Policy = Policy(day: int, repeat: int) {
    predicate Valid() {
      0 <= day <= MaxAllowedDay && repeat > 0
    }
  }

  /** Construction-time validation and sentinel resolution, as the source
      writes it: the range check admits `day_of_month = 0`. `constructedOn`
      is the UTC date at construction, consulted only for the sentinel. */
  function New(dayOfMonth: int, repeatEveryDays: int, constructedOn: Date): (r: Result<Policy>)
    requires Valid(constructedOn)
    ensures repeatEveryDays <= 0 ==> r == Err(RepeatNotPositive)
    ensures repeatEveryDays > 0 && !(LastDaySentinel <= dayOfMonth <= MaxAllowedDay) ==> r == Err(DayOfMonthOutOfRange)
    ensures r.Ok? <==> repeatEveryDays > 0 && LastDaySentinel <= dayOfMonth <= MaxAllowedDay
    ensures r.Ok? ==> r.value.Valid() && r.value.repeat == repeatEveryDays
    ensures r.Ok? && dayOfMonth != LastDaySentinel ==> r.value.day == dayOfMonth
    ensures r.Ok? && dayOfMonth == LastDaySentinel ==>
              && Valid(Date(constructedOn.year, constructedOn.month, r.value.day))
              && !Valid(Date(constructedOn.year, constructedOn.month, r.value.day + 1))
  {
    if repeatEveryDays <= 0 then Err(RepeatNotPositive)
    else if !(LastDaySentinel <= dayOfMonth <= MaxAllowedDay) then Err(DayOfMonthOutOfRange)
    else if dayOfMonth == LastDaySentinel then
      Ok(Policy(LastOfMonth(constructedOn.year, constructedOn.month).day, repeatEveryDays))
    else Ok(Policy(dayOfMonth, repeatEveryDays))
  }

  /** The sentinel is resolved once: constructing with it is constructing
      with the length of the construction month, and the resulting policy no
      longer depends on any date. */
  lemma SentinelResolvedAtConstruction(repeatEveryDays: int, constructedOn: Date, later: Date)
    requires Valid(constructedOn) && Valid(later)
    ensures New(LastDaySentinel, repeatEveryDays, constructedOn)
         == New(DaysInMonth(constructedOn.year, constructedOn.month), repeatEveryDays, later)
    ensures New(LastDaySentinel, repeatEveryDays, constructedOn).Ok? ==>
              28 <= New(LastDaySentinel, repeatEveryDays, constructedOn).value.day
  {
  }

  /** `allowed_days`: the arithmetic sequence from `day` with step `repeat`
      while it stays within 31. */
  function AllowedDays(p: Policy): (s: seq<int>)
    requires p.Valid()
    ensures |s| >= 1 && s[0] == p.day
  {
    seq((MaxAllowedDay - p.day) / p.repeat + 1, i => p.day + i * p.repeat)
  }

  /** The shape of `allowed_days`: starts at `day`, steps by `repeat`, stays
      within 31, and one more step would leave it. */
  lemma AllowedDaysShape(p: Policy)
    requires p.Valid()
    ensures var s := AllowedDays(p);
            && |s| == (MaxAllowedDay - p.day) / p.repeat + 1
            && s[0] == p.day
            && (forall i :: 0 <= i < |s| - 1 ==> s[i + 1] == s[i] + p.repeat)
            && (forall i :: 0 <= i < |s| ==> p.day <= s[i] <= MaxAllowedDay)
            && s[|s| - 1] + p.repeat > MaxAllowedDay
  {
    AllowedDaysBounded(p);
    AllowedDaysStep(p);
    AllowedDaysMaximal(p);
  }

  lemma AllowedDaysBounded(p: Policy)
    requires p.Valid()
    ensures forall i :: 0 <= i < |AllowedDays(p)| ==> p.day <= AllowedDays(p)[i] <= MaxAllowedDay
  {
    forall i | 0 <= i < |AllowedDays(p)|
      ensures p.day <= AllowedDays(p)[i] <= MaxAllowedDay
    {
      AllowedAtIndex(p, i);
    }
  }

  lemma AllowedDaysStep(p: Policy)
    requires p.Valid()
    ensures forall i :: 0 <= i < |AllowedDays(p)| - 1 ==> AllowedDays(p)[i + 1] == AllowedDays(p)[i] + p.repeat
  {
    var s := AllowedDays(p);
    forall i | 0 <= i < |s| - 1
      ensures s[i + 1] == s[i] + p.repeat
    {
      AllowedDaysSuccessor(p, i);
    }
  }

  /** The step for one index. `NextDue` calls this rather than
      `AllowedDaysStep`, because a quantified fact about every index makes
      its obligation markedly more expensive for the solver. */
  lemma AllowedDaysSuccessor(p: Policy, i: nat)
    requires p.Valid() && i + 1 < |AllowedDays(p)|
    ensures AllowedDays(p)[i + 1] == AllowedDays(p)[i] + p.repeat
  {
    assert (i + 1) * p.repeat == i * p.repeat + p.repeat;
  }

  lemma AllowedDaysMaximal(p: Policy)
    requires p.Valid()
    ensures AllowedDays(p)[|AllowedDays(p)| - 1] + p.repeat > MaxAllowedDay
  {
    var s := AllowedDays(p);
    var q := (MaxAllowedDay - p.day) / p.repeat;
    assert MaxAllowedDay - p.day == p.repeat * q + (MaxAllowedDay - p.day) % p.repeat;
    assert s[|s| - 1] == p.day + q * p.repeat;
    assert (q + 1) * p.repeat == q * p.repeat + p.repeat;
  }

  lemma MulMonotone(a: int, b: int, k: int)
    requires 0 <= a <= b && k >= 0
    ensures 0 <= a * k <= b * k
  {
    assert b * k == a * k + (b - a) * k;
  }

  /** Allowed days are strictly increasing, so at most one index holds any day. */
  lemma AllowedDaysIncreasing(p: Policy)
    requires p.Valid()
    ensures forall i, j :: 0 <= i < j < |AllowedDays(p)| ==> AllowedDays(p)[i] < AllowedDays(p)[j]
  {
    var s := AllowedDays(p);
    forall i, j | 0 <= i < j < |s|
      ensures s[i] < s[j]
    {
      assert s[j] - s[i] == (j - i) * p.repeat;
      MulMonotone(1, j - i, p.repeat);
    }
  }

  /** An independent description of the allowed days: exactly the days from
      `day` to 31 that are `day` plus a multiple of `repeat`. */
  lemma AllowedDaysMembership(p: Policy, x: int)
    requires p.Valid()
    ensures x in AllowedDays(p) <==> p.day <= x <= MaxAllowedDay && (x - p.day) % p.repeat == 0
  {
    if x in AllowedDays(p) {
      AllowedIsOnGrid(p, x);
    }
    if p.day <= x <= MaxAllowedDay && (x - p.day) % p.repeat == 0 {
      GridIsAllowed(p, x);
    }
  }

  lemma AllowedIsOnGrid(p: Policy, x: int)
    requires p.Valid() && x in AllowedDays(p)
    ensures p.day <= x <= MaxAllowedDay && (x - p.day) % p.repeat == 0
  {
    var s := AllowedDays(p);
    var i :| 0 <= i < |s| && s[i] == x;
    AllowedAtIndex(p, i);
  }

  lemma AllowedAtIndex(p: Policy, i: int)
    requires p.Valid() && 0 <= i < |AllowedDays(p)|
    ensures p.day <= AllowedDays(p)[i] <= MaxAllowedDay
    ensures (AllowedDays(p)[i] - p.day) % p.repeat == 0
  {
    AllowedAtIndexBounded(p, i);
    assert AllowedDays(p)[i] - p.day == p.repeat * i;
    DivModUnique(AllowedDays(p)[i] - p.day, p.repeat, i, 0);
  }

  /** The bound half of `AllowedAtIndex`, proved on its own so that
      neither proof has to carry the other's arithmetic facts. */
  lemma AllowedAtIndexBounded(p: Policy, i: int)
    requires p.Valid() && 0 <= i < |AllowedDays(p)|
    ensures p.day <= AllowedDays(p)[i] <= MaxAllowedDay
  {
    var q := (MaxAllowedDay - p.day) / p.repeat;
    assert q * p.repeat <= MaxAllowedDay - p.day;
    MulMonotone(i, q, p.repeat);
  }

  lemma GridIsAllowed(p: Policy, x: int)
    requires p.Valid() && p.day <= x <= MaxAllowedDay && (x - p.day) % p.repeat == 0
    ensures x in AllowedDays(p)
  {
    var s := AllowedDays(p);
    var q := (x - p.day) / p.repeat;
    assert x - p.day == p.repeat * q;
    DivMonotone(x - p.day, MaxAllowedDay - p.day, p.repeat);
    assert s[q] == x;
  }

  lemma DivMonotone(a: int, b: int, k: int)
    requires 0 <= a <= b && k > 0
    ensures 0 <= a / k <= b / k
  {
    var qa, qb := a / k, b / k;
    assert a == k * qa + a % k && b == k * qb + b % k;
    MulAwayFromZero(k, qa - qb);
    assert k * (qa - qb) == k * qa - k * qb;
    MulAwayFromZero(k, qa);
  }

  /** The scan `for i, day in enumerate(allowed_days): if today.day == day`:
      the first index from `from` on holding `x`, if any. */
  function FindDay(days: seq<int>, x: int, from: nat): (r: Option<nat>)
    requires from <= |days|
    ensures r.Some? ==> from <= r.value < |days| && days[r.value] == x
    ensures r.Some? ==> forall j :: from <= j < r.value ==> days[j] != x
    ensures r.None? ==> forall j :: from <= j < |days| ==> days[j] != x
    decreases |days| - from
  {
    if from == |days| then None
    else if days[from] == x then Some(from)
    else FindDay(days, x, from + 1)
  }

  /** On the allowed days the scan finds day `x` exactly at index
      `(x - day) / repeat`, and nowhere when `x` is not allowed. */
  lemma FindDayOnAllowedDays(p: Policy, x: int)
    requires p.Valid()
    ensures FindDay(AllowedDays(p), x, 0).Some? <==> x in AllowedDays(p)
    ensures FindDay(AllowedDays(p), x, 0).Some? ==>
              FindDay(AllowedDays(p), x, 0).value == (x - p.day) / p.repeat
  {
    var s := AllowedDays(p);
    var r := FindDay(s, x, 0);
    if r.Some? {
      var i := r.value;
      assert s[i] == p.day + i * p.repeat;
      DivModUnique(x - p.day, p.repeat, i, 0);
    }
  }

  /** Next due instant after a run on `today`, which sits at index `i` of the
      allowed days: UTC midnight of the successor day this month, or, past the
      last allowed day, midnight of the month's last day plus `day` days.
      A successor day the month does not have makes `datetime.replace` raise;
      the wrap-around from December 9999 overflows `datetime`. */
  function NextDue(p: Policy, i: nat, today: Date): (r: Result<int>)
    requires p.Valid() && Valid(today)
    requires i < |AllowedDays(p)| && AllowedDays(p)[i] == today.day
    ensures r.Ok? ==> r.value % SecondsPerDay == 0 && r.value >= Midnight(today)
    ensures r.Ok? && p.day >= 1 ==> r.value > Midnight(today)
    ensures i + 1 < |AllowedDays(p)| ==>
              (r.Ok? <==> AllowedDays(p)[i + 1] <= DaysInMonth(today.year, today.month))
    ensures i + 1 < |AllowedDays(p)| && r.Ok? ==>
              r.value == Midnight(Date(today.year, today.month, AllowedDays(p)[i + 1]))
    ensures i + 1 == |AllowedDays(p)| ==>
              (r.Err? <==> today.year == MaxYear && today.month == 12 && p.day >= 1)
    ensures i + 1 == |AllowedDays(p)| && r.Ok? ==>
              r.value == DayStart(EpochDay(LastOfMonth(today.year, today.month)) + p.day)
    ensures r.Err? ==> r.error == (if i + 1 < |AllowedDays(p)| then DayNotInMonth else DateOverflow)
  {
    var days := AllowedDays(p);
    if i + 1 < |days| then
      AllowedDaysSuccessor(p, i);
      SuccessorDue(today, days[i + 1])
    else
      WrapDue(today, p.day)  // the first allowed day
  }

  /** Midnight of day `succ` of today's month, a later day of that month;
      `datetime.replace` rejects a day the month does not have. */
  function SuccessorDue(today: Date, succ: int): (r: Result<int>)
    requires Valid(today) && succ > today.day
    ensures r.Ok? <==> succ <= DaysInMonth(today.year, today.month)
    ensures r.Err? ==> r.error == DayNotInMonth
    ensures r.Ok? ==> r.value == Midnight(Date(today.year, today.month, succ))
    ensures r.Ok? ==> r.value > Midnight(today) && r.value % SecondsPerDay == 0
  {
    if succ <= DaysInMonth(today.year, today.month) then
      var d := Date(today.year, today.month, succ);
      SameMonthDistance(today, d);
      DayStartAligned(EpochDay(d));
      Ok(Midnight(d))
    else Err(DayNotInMonth)
  }

  /** Midnight of the last day of today's month plus `anchor` days; past
      9999-12-31 `datetime` overflows. The anchor is the first allowed day,
      at most 31, so that happens exactly when wrapping out of December 9999. */
  function WrapDue(today: Date, anchor: int): (r: Result<int>)
    requires Valid(today) && 0 <= anchor <= MaxAllowedDay
    ensures r.Err? <==> today.year == MaxYear && today.month == 12 && anchor >= 1
    ensures r.Err? ==> r.error == DateOverflow
    ensures r.Ok? ==> r.value == DayStart(EpochDay(LastOfMonth(today.year, today.month)) + anchor)
    ensures r.Ok? ==> r.value >= Midnight(today) && (anchor >= 1 ==> r.value > Midnight(today))
    ensures r.Ok? ==> r.value % SecondsPerDay == 0
  {
    var last := LastOfMonth(today.year, today.month);
    if today.year == MaxYear && today.month == 12 && anchor > 0 then Err(DateOverflow)
    else
      SameMonthDistance(today, last);
      DayStartAligned(EpochDay(last) + anchor);
      Ok(DayStart(EpochDay(last) + anchor))
  }

  /** The wrap-around lands on day `day` of the next month whenever that
      month has such a day. */
  lemma WrapLandsOnAnchorDay(p: Policy, today: Date)
    requires p.Valid() && Valid(today) && 1 <= p.day
    requires |AllowedDays(p)| >= 1 && AllowedDays(p)[|AllowedDays(p)| - 1] == today.day
    requires today.year < MaxYear || today.month < 12
    requires var n := FirstOfNextMonth(today.year, today.month);
             p.day <= DaysInMonth(n.year, n.month)
    ensures var n := FirstOfNextMonth(today.year, today.month);
            && Valid(Date(n.year, n.month, p.day))
            && NextDue(p, |AllowedDays(p)| - 1, today) == Ok(Midnight(Date(n.year, n.month, p.day)))
  {
    PastMonthEnd(today.year, today.month, p.day);
  }

  /** The index of an allowed day, `(x - day) / repeat`. */
  function DayIndex(p: Policy, x: int): (i: nat)
    requires p.Valid() && x in AllowedDays(p)
    ensures i < |AllowedDays(p)| && AllowedDays(p)[i] == x
    ensures FindDay(AllowedDays(p), x, 0) == Some(i)
  {
    FindDayOnAllowedDays(p, x);
    AllowedDaysMembership(p, x);
    (x - p.day) / p.repeat
  }

  /** The store half of `call_fn_or_not`, once today is known to be allowed
      and its next due instant `due` is known: get-or-init the signature, read
      the stored timestamp, overwrite the record if the policy changed, then
      run and store the fresh signature iff `todayTs >=` the timestamp read. */
  function Reconcile(p: Policy, name: string, due: int, todayTs: int, db: Db): (r: Result<Decision>)
    ensures r.Err? <==> name in Contents(db) && Contents(db)[name].Ts?
    ensures r.Err? ==> r.error == NotSubscriptable
    ensures r.Ok? ==> OthersUnchanged(Contents(db), Contents(r.value.db), name)
    ensures r.Ok? ==> name in Contents(r.value.db) && Contents(r.value.db)[name].Sig?
    // The timestamp stored before the call decides; a fresh record holds `due`.
    ensures r.Ok? && name in Contents(db) ==> (r.value.run <==> Contents(db)[name].due <= todayTs as real)
    ensures r.Ok? && name !in Contents(db) ==> (r.value.run <==> due <= todayTs)
    // A skip with the same policy already stored writes nothing; every other
    // outcome leaves the fresh signature.
    ensures r.Ok? && !r.value.run && name in Contents(db)
            && Contents(db)[name].day == p.day && Contents(db)[name].repeat == p.repeat
            ==> r.value.db == db
    ensures r.Ok? && (r.value.run || name !in Contents(db)
                      || Contents(db)[name].day != p.day || Contents(db)[name].repeat != p.repeat)
            ==> Contents(r.value.db)[name] == Sig(p.day, p.repeat, due as real)
  {
    var sig := Sig(p.day, p.repeat, due as real);
    var (stored, db1) := GetDefault(db, name, sig, false);
    if !stored.Sig? then Err(NotSubscriptable)
    else
      var storedDue := stored.due;
      var db2 :=
        if p.day != stored.day || p.repeat != stored.repeat
        then GetDefault(db1, name, sig, true).1
        else db1;
      if todayTs as real >= storedDue
      then Ok(Decision(true, GetDefault(db2, name, sig, true).1))
      else Ok(Decision(false, db2))
  }

  /** `call_fn_or_not` for one call on `today` (the UTC date of "now") with the
      store `db`: whether the wrapped function runs, and the store afterwards. */
  function Call(p: Policy, name: string, today: Date, db: Db): (r: Result<Decision>)
    requires p.Valid() && Valid(today)
    // Not an allowed day: nothing is read or written and nothing runs.
    ensures today.day !in AllowedDays(p) ==> r == Ok(Decision(false, db))
    ensures r.Ok? && r.value.run ==> today.day in AllowedDays(p)
    ensures r.Ok? ==> OthersUnchanged(Contents(db), Contents(r.value.db), name)
    // On an allowed day: a missing successor day (or the year 9999 overflow)
    // fails before the store is touched ...
    ensures today.day in AllowedDays(p) && NextDue(p, DayIndex(p, today.day), today).Err? ==>
              r == Err(NextDue(p, DayIndex(p, today.day), today).error)
    // ... and otherwise the store reconciliation decides, against today's midnight.
    ensures today.day in AllowedDays(p) && NextDue(p, DayIndex(p, today.day), today).Ok? ==>
              r == Reconcile(p, name, NextDue(p, DayIndex(p, today.day), today).value, Midnight(today), db)
  {
    match FindDay(AllowedDays(p), today.day, 0)
    case None => Ok(Decision(false, db))
    case Some(i) =>
      match NextDue(p, i, today)
      case Err(e) => Err(e)
      case Ok(due) => Reconcile(p, name, due, Midnight(today), db)
  }

  /** The fresh signature written by a call on allowed day `today`. */
  function FreshSignature(p: Policy, today: Date): (v: Option<Value>)
    requires p.Valid() && Valid(today) && today.day in AllowedDays(p)
    ensures v.Some? ==> v.value.Sig? && v.value.day == p.day && v.value.repeat == p.repeat
    ensures v.Some? && p.day >= 1 ==> v.value.due > Midnight(today) as real
  {
    match NextDue(p, DayIndex(p, today.day), today)
    case Ok(due) => Some(Sig(p.day, p.repeat, due as real))
    case Err(_) => None
  }

  /** With a signature record already stored, the function runs exactly when
      the timestamp stored before the call is not after today's midnight. */
  lemma RunIffExpired(p: Policy, name: string, today: Date, db: Db)
    requires p.Valid() && Valid(today) && today.day in AllowedDays(p)
    requires FreshSignature(p, today).Some?
    requires name in Contents(db) && Contents(db)[name].Sig?
    ensures Call(p, name, today, db).Ok?
    ensures Call(p, name, today, db).value.run <==> Contents(db)[name].due <= Midnight(today) as real
  {
  }

  /** A stored signature for other parameters is replaced by the fresh one,
      whether or not the function runs. */
  lemma PolicyChangeOverwrites(p: Policy, name: string, today: Date, db: Db)
    requires p.Valid() && Valid(today) && today.day in AllowedDays(p)
    requires FreshSignature(p, today).Some?
    requires name in Contents(db) && Contents(db)[name].Sig?
    requires Contents(db)[name].day != p.day || Contents(db)[name].repeat != p.repeat
    ensures Call(p, name, today, db).Ok?
    ensures Contents(Call(p, name, today, db).value.db)[name] == FreshSignature(p, today).value
  {
  }

  /** For a policy anchored on a real day (day >= 1), the first call on an
      allowed day only registers the wrapped function: it does not run. */
  lemma FirstCallSkips(p: Policy, name: string, today: Date, db: Db)
    requires p.Valid() && p.day >= 1 && Valid(today) && today.day in AllowedDays(p)
    requires FreshSignature(p, today).Some?
    requires name !in Contents(db)
    ensures Call(p, name, today, db).Ok?
    ensures !Call(p, name, today, db).value.run
    ensures Contents(Call(p, name, today, db).value.db) == Contents(db)[name := FreshSignature(p, today).value]
  {
    var db' := Call(p, name, today, db).value.db;
    assert Contents(db') == Contents(db)[name := FreshSignature(p, today).value];
  }

  /** For a policy anchored on a real day (day >= 1), a run pushes the stored
      timestamp past today, so the next call on the same day skips and writes
      nothing. */
  lemma {:induction false} AtMostOneRunPerDay(p: Policy, name: string, today: Date, db: Db, db1: Db)
    requires p.Valid() && p.day >= 1 && Valid(today)
    requires Call(p, name, today, db) == Ok(Decision(true, db1))
    ensures Call(p, name, today, db1) == Ok(Decision(false, db1))
  {
    assert today.day in AllowedDays(p);
    var due := NextDue(p, DayIndex(p, today.day), today);
    assert due.Ok?;
    assert Contents(db1)[name] == Sig(p.day, p.repeat, due.value as real);
  }

  // ---------------------------------------------------------------------
  // day_of_month = 0. The range check `range(-1, 32)` admits 0, though its
  // message asks for a day above 0 and the sentinel is -1. With day 0 the
  // wrap-around adds zero days to the month's last day, so next-due can be
  // today itself.

  /** As written: `every_specific(day_of_month=0, repeat_every_days=31)` is
      accepted, and on the 31st it runs on the very first call and again on
      every later call that day. */
  lemma ZeroDayRunsOnEveryCall(constructedOn: Date, today: Date, name: string, db: Db)
    requires Valid(constructedOn) && Valid(today) && today.day == 31
    requires name !in Contents(db)
    ensures New(0, 31, constructedOn) == Ok(Policy(0, 31))
    ensures var r := Call(Policy(0, 31), name, today, db);
            && r.Ok? && r.value.run
            && Call(Policy(0, 31), name, today, r.value.db) == Ok(Decision(true, r.value.db))
  {
    var p := Policy(0, 31);
    AllowedDaysMembership(p, 31);
    assert DayIndex(p, 31) == 1;
    assert AllowedDays(p) == [0, 31];
    assert LastOfMonth(today.year, today.month) == today;
    assert NextDue(p, 1, today) == Ok(Midnight(today));
    var sig := Sig(0, 31, Midnight(today) as real);
    var db1 := Parsed(Contents(db)[name := sig]);
    assert Contents(db1)[name := sig] == Contents(db1);
    assert Call(p, name, today, db) == Ok(Decision(true, db1));
  }

  /** Corrected construction: day_of_month must be the sentinel or a day
      from 1 to 31. */
  function NewChecked(dayOfMonth: int, repeatEveryDays: int, constructedOn: Date): (r: Result<Policy>)
    requires Valid(constructedOn)
    ensures r.Ok? <==> repeatEveryDays > 0 && (dayOfMonth == LastDaySentinel || 1 <= dayOfMonth <= MaxAllowedDay)
    ensures repeatEveryDays <= 0 ==> r == Err(RepeatNotPositive)
    ensures r.Ok? ==> r.value.Valid() && r.value.day >= 1
    ensures r.Ok? ==> r == New(dayOfMonth, repeatEveryDays, constructedOn)
  {
    if repeatEveryDays > 0 && dayOfMonth == 0 then Err(DayOfMonthOutOfRange)
    else New(dayOfMonth, repeatEveryDays, constructedOn)
  }

  /** With the corrected construction a task registers without running and
      then runs at most once per allowed day. */
  lemma CheckedPolicyRunsOncePerDay(
    dayOfMonth: int, repeatEveryDays: int, constructedOn: Date,
    name: string, today: Date, db: Db)
    requires Valid(constructedOn) && Valid(today)
    requires NewChecked(dayOfMonth, repeatEveryDays, constructedOn).Ok?
    ensures var p := NewChecked(dayOfMonth, repeatEveryDays, constructedOn).value;
            var r := Call(p, name, today, db);
            && (name !in Contents(db) && r.Ok? ==> !r.value.run)
            && (r.Ok? && r.value.run ==> Call(p, name, today, r.value.db) == Ok(Decision(false, r.value.db)))
  {
    var p := NewChecked(dayOfMonth, repeatEveryDays, constructedOn).value;
    var r := Call(p, name, today, db);
    if r.Ok? && r.value.run {
      AtMostOneRunPerDay(p, name, today, db, r.value.db);
    }
  }

  /** As written: an allowed day whose successor the month lacks raises on
      every call, so that day's run is lost. With (14, 5) the successor of the
      24th is the 29th, which February 2025 does not have; with (1, 15) the
      successor of the 16th is the 31st, which April does not have. The
      corrected rule moves next-due to the 14th of March instead. */
  lemma MissingSuccessorRaises(name: string, db: Db)
    ensures Call(Policy(14, 5), name, Date(2025, 2, 24), db) == Err(DayNotInMonth)
    ensures Call(Policy(1, 15), name, Date(2025, 4, 16), db) == Err(DayNotInMonth)
    ensures NextDueWrapped(Policy(14, 5), 2, Date(2025, 2, 24)) == Ok(Midnight(Date(2025, 3, 14)))
  {
    var p := Policy(14, 5);
    assert AllowedDays(p) == [14, 19, 24, 29];
    assert DayIndex(p, 24) == 2;
    var q := Policy(1, 15);
    assert AllowedDays(q) == [1, 16, 31];
    assert DayIndex(q, 16) == 1;
    PastMonthEnd(2025, 2, 14);
  }

  /** Corrected next-due: a successor day the month lacks is treated like
      running past the last allowed day, so the schedule wraps to the next
      month instead of raising. Only the December 9999 overflow remains. */
  function NextDueWrapped(p: Policy, i: nat, today: Date): (r: Result<int>)
    requires p.Valid() && Valid(today)
    requires i < |AllowedDays(p)| && AllowedDays(p)[i] == today.day
    ensures r.Err? ==> r.error == DateOverflow && today.year == MaxYear && today.month == 12
    ensures today.year < MaxYear || today.month < 12 ==> r.Ok?
    ensures r.Ok? ==> r.value % SecondsPerDay == 0 && r.value >= Midnight(today)
    ensures r.Ok? && p.day >= 1 ==> r.value > Midnight(today)
    // Wherever the code as written succeeds, the corrected rule agrees with it.
    ensures NextDue(p, i, today).Ok? ==> r == NextDue(p, i, today)
    // Where it raises for a missing successor, the corrected rule wraps.
    ensures NextDue(p, i, today) == Err(DayNotInMonth) ==>
              r == WrapDue(today, p.day)
  {
    var days := AllowedDays(p);
    if i + 1 < |days| && days[i + 1] <= DaysInMonth(today.year, today.month) then
      NextDue(p, i, today)
    else
      WrapDue(today, p.day)  // the first allowed day
  }

  /** Worked example: `every_specific(day_of_month=14, repeat_every_days=5)`
      with an empty store registers on 2024-03-14 without running, storing
      the 19th as next due; on 2024-03-19 it runs and moves on to the 24th. */
  lemma MarchExample(name: string)
    ensures var p := Policy(14, 5);
            && AllowedDays(p) == [14, 19, 24, 29]
            && Midnight(Date(2024, 3, 14)) == 1710374400
            && var first := Call(p, name, Date(2024, 3, 14), Parsed(map[]));
               && first == Ok(Decision(false, Parsed(map[name := Sig(14, 5, 1710806400.0)])))
               && Call(p, name, Date(2024, 3, 19), first.value.db)
                  == Ok(Decision(true, Parsed(map[name := Sig(14, 5, 1711238400.0)])))
  {
    var p := Policy(14, 5);
    assert AllowedDays(p) == [14, 19, 24, 29];
    DaysBeforeMonthTable(2024, 3);
    assert DayIndex(p, 14) == 0;
    assert DayIndex(p, 19) == 1;
    assert NextDue(p, 0, Date(2024, 3, 14)) == Ok(1710806400);
    assert NextDue(p, 1, Date(2024, 3, 19)) == Ok(1711238400);
    var db1 := Parsed(map[name := Sig(14, 5, 1710806400.0)]);
    assert Call(p, name, Date(2024, 3, 14), Parsed(map[])) == Ok(Decision(false, db1));
    assert map[name := Sig(14, 5, 1710806400.0)][name := Sig(14, 5, 1711238400.0)]
        == map[name := Sig(14, 5, 1711238400.0)];
  }

  /** The default policy runs only on the 1st, and a run there makes the 1st
      of the following month due. */
  lemma DefaultIsFirstOfEachMonth(constructedOn: Date, today: Date)
    requires Valid(constructedOn) && Valid(today) && today.day == 1
    requires today.year < MaxYear || today.month < 12
    ensures New(DefaultDayOfMonth, DefaultRepeatEveryDays, constructedOn) == Ok(Policy(1, 31))
    ensures AllowedDays(Policy(1, 31)) == [1]
    ensures NextDue(Policy(1, 31), 0, today)
         == Ok(Midnight(FirstOfNextMonth(today.year, today.month)))
  {
    var p := Policy(1, 31);
    assert AllowedDays(p) == [1];
    WrapLandsOnAnchorDay(p, today);
  }
}

=== FILE: outcomes.dfy ===
/** Failure-carrying datatypes shared by both scheduling policies.
    The source signals failure by raising exceptions; each kind it can raise
    from the modelled core is one constructor of `Error`. */
module Outcomes {

  datatype Option<+T> = None | Some(value: T)

  /** The exceptions the core can raise. */
  datatype Error =
    | RepeatNotPositive     // ValueError: repeat_every_days must be > 0
    | DayOfMonthOutOfRange  // ValueError: day_of_month outside range(-1, 32)
    | DayNotInMonth         // ValueError from datetime.replace: no such day this month
    | DateOverflow          // OverflowError: date arithmetic past year 9999
    | NotSubscriptable      // TypeError: a bare timestamp indexed as a signature
    | NotComparable         // TypeError: a signature compared with a timestamp
    | IntervalOverflow      // OverflowError: an interval outside timedelta's range

  datatype Result<+T> = Ok(value: T) | Err(error: Error)
}

=== FILE: store.dfy ===
/** The key-value record store behind `get_default`
    (periodicity/periodic_wrappers.py). The file, its directory and the JSON
    encoding are abstracted away: what remains is a map from task names to
    stored records, or content that does not parse. */
module Store {

  /** What one guarded call did: whether the wrapped function ran, and the
      store afterwards. */
  datatype Decision = Decision(run: bool, db: Db)

  /** A stored record: the interval policy keeps a bare next-due timestamp,
      the calendar policy a signature `(day_of_month, repeat_every_days, ts)`. */
  datatype Value =
    | Ts(t: real)
    | Sig(day: int, repeat: int, due: real)

  /** The store file's content: a parsed JSON object, or anything else. */
  datatype Db = Parsed(entries: map<string, Value>) | Unparseable

  /** What the store holds as a map; content that does not parse reads as empty. */
  function Contents(db: Db): (m: map<string, Value>)
    ensures db.Parsed? ==> m == db.entries
    ensures db.Unparseable? ==> m == map[]
  {
    match db
    case Parsed(entries) => entries
    case Unparseable => map[]
  }

  /** Every key other than `key` is bound identically in `m` and `m'`. */
  predicate OthersUnchanged(m: map<string, Value>, m': map<string, Value>, key: string) {
    && (forall k :: k in m && k != key ==> k in m' && m'[k] == m[k])
    && (forall k :: k in m' && k != key ==> k in m)
  }

  /** `get_default(key, value, overwrite)`: without `overwrite` a get-or-init,
      with it an unconditional set. Returns the value now held for `key`
      together with the store afterwards. */
  function GetDefault(db: Db, key: string, value: Value, overwrite: bool): (r: (Value, Db))
    ensures r.1.Parsed? && key in r.1.entries && r.1.entries[key] == r.0
    ensures !overwrite && key in Contents(db) ==> r.0 == Contents(db)[key] && r.1 == db
    ensures overwrite || key !in Contents(db) ==> r.0 == value
    ensures OthersUnchanged(Contents(db), r.1.entries, key)
  {
    var obj := Contents(db);
    if !overwrite && key in obj then (obj[key], db)
    else (value, Parsed(obj[key := value]))
  }

  /** Content that does not parse behaves exactly as an empty object. */
  lemma UnparseableActsEmpty(key: string, value: Value, overwrite: bool)
    ensures GetDefault(Unparseable, key, value, overwrite) == GetDefault(Parsed(map[]), key, value, overwrite)
  {
  }

  /** A get-or-init is idempotent: repeating it returns the same value and
      leaves the store as the first call left it. */
  lemma GetOrInitIdempotent(db: Db, key: string, v: Value, w: Value)
    ensures var (x, db1) := GetDefault(db, key, v, false);
            GetDefault(db1, key, w, false) == (x, db1)
  {
  }

  /** After a set, a get-or-init with any default reads back the value set. */
  lemma ReadAfterSet(db: Db, key: string, v: Value, w: Value)
    ensures var db1 := GetDefault(db, key, v, true).1;
            GetDefault(db1, key, w, false) == (v, db1)
  {
  }

  /** Setting the same key twice keeps only the second value. */
  lemma SetTwice(db: Db, key: string, v: Value, w: Value)
    ensures GetDefault(GetDefault(db, key, v, true).1, key, w, true) == GetDefault(db, key, w, true)
  {
    var m := Contents(db);
    assert m[key := v][key := w] == m[key := w];
  }
}
